=== FILE: README.md ===
# Project and task API: access checks and soft-delete lifecycle

This Dafny project models the core of a small Django REST API for projects and
tasks. Users own projects. They can grant other users per-project membership
rows with four action flags: create, update and delete tasks, and add members.
Projects and tasks are never removed. A soft delete sets a `deleted` flag instead.

The model has six modules, one per concern of the source:

- `Outcomes` (`outcomes.dfy`): `Option`, the `Result` of a handler and its error
  kinds. These stand in for HTTP responses: 400 with a message, 404, and so on.
- `Models` (`models.dfy`): the `Project`, `ProjectMember` (here `Member`) and
  `Task` records. It also holds the task status choices and their default, the
  length bounds, and the `Store` that holds all rows. `Valid` states the database
  constraints every stored state satisfies: unique project names, a unique
  (project, user) pair per membership row, references that resolve, and
  auto-increment keys. `AddMember` inserts a membership row under the pair
  constraint.
- `Text` (`text.dfy`): `Strip`, the trimming of leading and trailing whitespace
  that every text field of the serializers applies to a submitted value. The
  blank, length and uniqueness checks see the trimmed value, and the trimmed value
  is what gets stored. Whitespace is what Python's `str.strip()` removes.
- `Permissions` (`permissions.dfy`): the five access checks `IsProjectMember`,
  `CanCreateTask`, `CanUpdateTask`, `CanDeleteTask` and `CanAddMembers`. There are
  also lemmas on owner bypass, flag independence, what the checks read, and how
  the flag checks relate to the membership check.
- `Views` (`views.dfy`): the handlers of `ProjectAPIView` (list, create, partial
  update, soft delete) and `TaskAPIView` (list by project, create under the
  owner-or-member guard, partial update, soft delete). Write handlers are pure
  functions from a store to a `Reply`, which pairs an answer with the new store.
  List handlers are loop methods that collect the visible rows.
- `Lifecycle` (`lifecycle.dfy`): lemmas that span several handlers. They cover
  double deletes, what a soft delete hides and what it leaves reachable, request
  sequences (a soft-deleted row never comes back; the constraints always hold),
  the uniqueness constraints at work, and two concrete scenarios.

Conventions:

- The acting user is a plain `UserId` parameter.
- A route keyword such as `pk` or `project_id` is an `Option<int>`. `Absent`
  holds for no value and for `0`, which is what Python's `not pk` tests.
- In `TaskAPIView` the handler bodies read the project id from the query string. There, `None`
  stands for an absent or empty parameter, and `Some(0)` goes ahead, because the
  string `"0"` is truthy.
- Membership rows form a sequence in primary-key order. This makes
  `.filter(...).first()` the first matching position.
- The access checks are pure functions of the store, so they cannot change it.

The model follows the code as written, also where that departs from the evident intent:

- The access checks never consult `deleted`. A soft-deleted project still lets its
  owner through, and a soft-deleted membership row still grants its flags
  (`Permissions.DeletedFlagsIgnored`).
- Task creation does not read `can_create`. Its guard is "owner or member"
  (`Lifecycle.CreateFlagNotConsulted`).
- Tasks can be created in a soft-deleted project, and the tasks of a soft-deleted
  project are still listed.
- Project update, project delete and task delete run no access check. The views
  name a permission class that `userapi/permissions.py` does not define.
- The project serializer exposes `owner`, so a partial update can change a
  project's owner (to a registered user).
- A task update checks the user against the task's current project only, and may
  move the task to any stored project or to no project.

## Model

| member | source | states |
|---|---|---|
| Models.ParseStatus | userapi/models.py:32-43 | a submitted status is accepted only if it is one of the three choice labels, and the accepted choice's label is the submitted text |
| Models.StatusLabelRoundTrip | userapi/models.py:32-36 | parsing a choice's label gives back that choice, and distinct choices have distinct labels |
| Models.Label | userapi/models.py:43 | every status label is non-empty and fits the 20-character column |
| Models.NewMember | userapi/models.py:18-22 | a new membership row is live and has exactly the flags explicitly granted; every other flag is false |
| Models.Valid | userapi/models.py:5-46 | the constraints every stored state keeps: project names unique (`unique=True`), one membership row per (project, user) pair (`unique_together`), every foreign key resolving to a stored row, text within its `max_length`, and keys below the next auto-increment value |
| Models.AddMember | userapi/models.py:15-25 | inserting a membership row succeeds iff project and user exist and no row (deleted or not) has the pair; success appends the row, failure changes nothing, and the constraints are kept |
| Text.Strip | userapi/serializers.py:16 | the trimmed text is no longer than the submitted one, is empty iff the submitted text is all whitespace, and otherwise starts and ends with a non-whitespace character |
| Text.StripRemovesOnlyEnds | userapi/serializers.py:16 | the submitted text is whitespace, then the trimmed text, then whitespace: nothing inside the text is removed |
| Text.StripKeepsTrimmed | userapi/serializers.py:16 | text with no whitespace at either end is kept unchanged |
| Text.StripIdempotent | userapi/serializers.py:16 | trimming an already trimmed text changes nothing |
| Text.StripIgnoresPadding | userapi/serializers.py:16 | any whitespace added around a text trims away: the result is the same as for the bare text |
| Permissions.FirstRow | userapi/permissions.py:28 | `.first()` finds the first matching membership row in key order, and finds none iff no row matches |
| Permissions.FlagCheck | userapi/permissions.py:18-71 | the shared rule of the flag checks: deny with no project id; allow the owner; else allow iff the first row for the pair has the flag |
| Permissions.IsProjectMember | userapi/permissions.py:5-15 | denies with no project id; otherwise allows iff the user owns the project or some membership row for the pair exists |
| Permissions.CanCreateTask | userapi/permissions.py:18-29 | denies with no project id; otherwise allows iff owner, or the membership row for the pair has `can_create` |
| Permissions.CanUpdateTask | userapi/permissions.py:32-43 | denies with no project id; otherwise allows iff owner, or the membership row for the pair has `can_update` |
| Permissions.CanDeleteTask | userapi/permissions.py:46-57 | denies with no project id; otherwise allows iff owner, or the membership row for the pair has `can_delete` |
| Permissions.CanAddMembers | userapi/permissions.py:60-71 | denies with no project id; otherwise allows iff owner, or the membership row for the pair has `add_members` |
| Permissions.OwnerBypass | userapi/permissions.py:12-14 | the owner of a stored project passes all five checks whatever rows or flags exist |
| Permissions.TheRowDecides | userapi/permissions.py:28-29 | with the pair constraint in force, a non-owner passes a flag check iff a row for the pair exists and carries the flag |
| Permissions.FlagImpliesMembership | userapi/permissions.py:15-29 | whenever a flag check allows, `IsProjectMember` allows too |
| Permissions.StrangerDenied | userapi/permissions.py:15 | a non-owner without a membership row fails all five checks |
| Permissions.FirstRowReadsKeys | userapi/permissions.py:28 | the membership lookup reads only each row's (project, user) pair |
| Permissions.FlagIndependence | userapi/permissions.py:28-71 | changing one flag of one row leaves the membership check and the other three flag checks unchanged for every user and project |
| Permissions.FlagDecidesOwnCheck | userapi/permissions.py:28-71 | after changing a flag on a non-owner's row, that flag's check answers exactly the new value |
| Permissions.DeletedFlagsIgnored | userapi/permissions.py:12-15 | two stores differing only in `deleted` flags give the same answer to every check |
| Views.CheckText | userapi/models.py:6-7 | a text field is refused iff its trimmed value is empty, longer than the column allows or contains a NUL character; it is refused as blank exactly when the submitted text is all whitespace |
| Views.CheckName | userapi/models.py:6 | a name is refused iff its text is unacceptable or another project already stores the trimmed name; "not unique" is reported exactly when the text is fine but the trimmed name is taken |
| Views.ListProjects | userapi/views.py:66-70 | lists exactly the non-deleted projects owned by the user, with their stored contents |
| Views.CreateProject | userapi/views.py:81-94 | succeeds iff the trimmed name is non-blank, at most 255 long, free of NUL and unused (deleted projects included), the trimmed description is non-blank and free of NUL, and the owner exists; the new project stores the trimmed texts, is live, owned by the acting user, under a fresh key; failure changes nothing; constraints kept |
| Views.ProjectPatchIdempotent | userapi/views.py:105 | a partial project update applied twice equals applied once, and an empty one changes nothing |
| Views.ApplyProjectPatch | userapi/serializers.py:16 | a partial project update changes only the supplied fields among name, description and owner, stores supplied text trimmed, and never changes `deleted` |
| Views.UpdateProject | userapi/views.py:100-121 | no id is rejected and an unknown id is not found, both without change; otherwise succeeds iff the supplied fields validate after trimming (the name unused by any other project), and then replaces only that project with the trimmed merge |
| Views.DeleteProject | userapi/views.py:127-142 | no id or unknown id is rejected without change; a live project becomes deleted with no other field or row changed; a deleted one answers "already deleted" with no change |
| Views.OwnerOrMember | userapi/views.py:183-186 | the guard of task creation and update: the project is stored and the user owns it or has a membership row for it, deleted or not |
| Views.ListTasks | userapi/views.py:152-170 | a missing project id is rejected; otherwise lists exactly the non-deleted tasks of that project |
| Views.CheckTaskInput | userapi/serializers.py:23-30 | a new task's fields are refused iff the trimmed title is blank, over 100 characters or has a NUL, the trimmed description is blank or has a NUL, or a submitted status is not one of the three choice labels |
| Views.CheckTaskPatch | userapi/serializers.py:23-30 | a partial task update is refused iff a supplied title, description or status fails those same checks, or a supplied project id names no stored project |
| Views.InitialStatus | userapi/models.py:43 | a new task's status is the submitted choice, or "To Do" when none is submitted |
| Views.CreateTask | userapi/views.py:176-209 | missing id, unknown project, and a user who is neither owner nor member are each rejected without change; otherwise succeeds iff the trimmed title (at most 100) and description are non-blank and free of NUL and the status is a choice label, storing a live task with the trimmed texts whose project is the requested one under a fresh key |
| Views.TaskPatchIdempotent | userapi/views.py:229 | a partial task update applied twice equals applied once, and an empty one changes nothing |
| Views.ApplyTaskPatch | userapi/serializers.py:23-30 | a partial task update changes only the supplied fields, stores supplied text trimmed and the status as the chosen label's choice, and never changes `deleted` or `created_by` |
| Views.UpdateTask | userapi/views.py:216-249 | no id, unknown id and a task without a project are rejected without change; otherwise succeeds iff the user is owner or member of the task's project and the supplied fields validate after trimming, replacing only that task with the trimmed merge |
| Views.DeleteTask | userapi/views.py:255-270 | no id or unknown id is rejected without change; a live task becomes deleted with nothing else changed; a deleted one answers "already deleted" with no change |
| Lifecycle.DeleteProjectTwice | userapi/views.py:130-138 | after a successful project delete, a second delete is refused as already deleted and changes nothing |
| Lifecycle.DeleteTaskTwice | userapi/views.py:258-266 | after a successful task delete, a second delete is refused as already deleted and changes nothing |
| Lifecycle.DeletedProjectHiddenButStillAuthorizes | userapi/views.py:68-70 | a soft-deleted project leaves its owner's listing while every access check answers as before |
| Lifecycle.DeletedProjectStillAcceptsTasks | userapi/views.py:181 | the owner of a soft-deleted project can still create tasks in it |
| Lifecycle.DeletedProjectTasksStillListed | userapi/views.py:156 | soft-deleting a project does not change which of its tasks are listed |
| Lifecycle.StepKeepsDeletes | userapi/serializers.py:16-30 | every write keeps the constraints, removes no row and never resets `deleted` |
| Lifecycle.RunKeepsDeletes | userapi/views.py:100-270 | over any sequence of writes the constraints hold and a soft-deleted row stays soft-deleted |
| Lifecycle.SecondMembershipRefused | userapi/models.py:24-25 | a second membership row for the same pair is refused, whatever its flags, with no change |
| Lifecycle.DuplicateNameRefused | userapi/models.py:6 | a name that trims to a stored project name is refused as not unique, even after that project is soft-deleted |
| Lifecycle.ProjectPaddingIgnored | userapi/serializers.py:16 | whitespace around a submitted project name or description changes neither the answer nor the stored project |
| Lifecycle.TaskPaddingIgnored | userapi/serializers.py:23-30 | whitespace around a submitted task title or description changes neither the answer nor the stored task |
| Lifecycle.BlankScenario | userapi/models.py:6-7 | a whitespace-only name, or a whitespace-only description, is refused as blank without change |
| Lifecycle.PaddedNameCollides | userapi/models.py:6 | with "Alpha" stored, a new project named " Alpha" is refused as not unique |
| Lifecycle.TrailingSpaceFits | userapi/models.py:6 | a 255-character name followed by a space is accepted, and stored as the 255 characters |
| Lifecycle.TaskGuardIsMembershipCheck | userapi/views.py:183-186 | on a valid store, the owner-or-member guard of the task handlers agrees with `IsProjectMember` |
| Lifecycle.CreateFlagNotConsulted | userapi/views.py:183-191 | a member with no flags is denied by `CanCreateTask` but can still create a task through the handler |
| Lifecycle.AlphaScenario | userapi/views.py:176-198 | a non-member cannot add a task to "Alpha"; once added with `can_create`, they can, and the task belongs to Alpha |

## Left out

- Authentication (`userapi/authentication.py`): decoding the bearer token, its signature and its expiry belong to a library that is not part of this model. The acting user is an input.
- Registration and login (`userapi/views.py:18-60`): password hashing, token signing and the clock are library calls and I/O.
- Where the user comes from: the handlers read the acting user from the `user_id` query parameter. The model takes it as a parameter and does not parse requests. Anonymous users are not modelled.
- Which permission class guards the views: they name a class that `userapi/permissions.py` does not define. The model applies no check in those handlers, and the five checks are modelled on their own.
- The `members` field of the project serializer has no model field behind it. Task creation and update compare the user with it and with `owner` as strings against ids. The model uses the rule these lines evidently intend: the owner, or a user with any membership row for the project.
- Views.CreateTask: stamps `created_by` with the acting user. The task serializer does not expose `created_by`, so the source as written would fail when saving.
- Response shapes and HTTP status codes, and the catch-all handlers that answer 500 for any exception: a handler's answer is an `Ok` value or an `Error` kind. Non-numeric ids in the query string, which raise in the `filter` and `get_object_or_404` lookups (`userapi/views.py:68-69`, `156`, `181`), are not modelled. Route ids are always numbers: the routes use integer converters. On project creation a non-numeric `user_id` is instead refused by the serializer's `owner` field with a 400 (`userapi/views.py:84-86`); the model's `UserId` is always a number.
- Views.ListProjects, Views.CreateProject, Views.UpdateProject: the project serializer lists a `members` field (`userapi/serializers.py:16`) that the `Project` model does not have, so as written it fails with an improper-configuration error, answered 500, whenever it builds its fields: a listing with at least one live project (`userapi/views.py:71`), every creation (`85`) and every update (`105`). A listing with no live projects answers an empty list. The model treats the serializer as having the fields `name`, `description` and `owner` only.
- Views.ListTasks, Views.CreateTask, Views.UpdateTask, Views.DeleteTask: every task route carries a `project_id` keyword (`userapi/urls.py:13-14`), but the handlers do not accept it (`userapi/views.py:152`, `176`, `216`, `255`), so as written each task request fails with a type error, answered 500, before the handler body runs. The model describes the handler bodies, reading the project id from the query string as they do.
- Views.CreateProject, Views.CreateTask: a request that omits a required field is refused as "required"; the model's inputs always carry every field.
- Views.CreateProject, Views.UpdateProject, Views.CreateTask, Views.UpdateTask: when several fields are invalid, the serializer reports all of them. The model reports one. Values that are not text (numbers, booleans) submitted for a text field are not modelled: every input is a string.
- Permissions.CanUpdateTask: the check also prints the acting user to standard output (`userapi/permissions.py:38`). The model drops this output; it does not affect the answer.
- Task.due_date is an opaque `Date`; no date parsing or calendar validity.
- The routing table (`userapi/urls.py`), which also names a members view that does not exist, and the generated migration, which repeats `userapi/models.py`.
- Concurrent requests and races on the uniqueness constraints: each handler is one atomic step.
- Cascade deletion of rows when a project or user row is physically removed: the handlers only soft-delete.

=== FILE: lifecycle.dfy ===
/** Properties that relate several handlers: the soft-delete lifecycle, what a
    soft delete hides and what it does not, the task guard against the access
    checks, and whole request sequences.
 */
module Lifecycle {
  import opened Outcomes
  import opened Models
  import opened Permissions
  import opened Views
  import opened Text

  // ===========================================================================
  // Soft delete

  /** A second delete of the same project is refused and changes nothing, so
      delete is not an idempotent success. */
  lemma DeleteProjectTwice(s: Store, pk: ProjectId)
    requires DeleteProject(s, Some(pk)).result.Ok?
    ensures var first := DeleteProject(s, Some(pk)).store;
      DeleteProject(first, Some(pk)) == Reply(Err(AlreadyDeleted), first)
  {
  }

  /** The same two-outcome rule for tasks. */
  lemma DeleteTaskTwice(s: Store, pk: TaskId)
    requires DeleteTask(s, Some(pk)).result.Ok?
    ensures var first := DeleteTask(s, Some(pk)).store;
      DeleteTask(first, Some(pk)) == Reply(Err(AlreadyDeleted), first)
  {
  }

  /** Soft-deleting a project removes it from its owner's listing, yet every access
      check answers exactly as before: the row is still found by id. */
  lemma DeletedProjectHiddenButStillAuthorizes(s: Store, pk: ProjectId, user: UserId, pid: Option<int>, f: Flag)
    requires DeleteProject(s, Some(pk)).result.Ok?
    ensures var t := DeleteProject(s, Some(pk)).store;
      && !ListedProject(t, s.projects[pk].owner, pk)
      && IsProjectMember(t, user, pid) == IsProjectMember(s, user, pid)
      && Check(t, user, pid, f) == Check(s, user, pid, f)
  {
    var t := DeleteProject(s, Some(pk)).store;
    assert SameButDeleted(s, t) by {
      forall id | id in s.projects
        ensures s.projects[id].(deleted := false) == t.projects[id].(deleted := false)
      {
        if id == pk {
          assert t.projects[id].(deleted := false) == s.projects[id];
        }
      }
    }
    DeletedFlagsIgnored(s, t, user, pid, f);
  }

  /** The owner of a soft-deleted project can still add tasks to it: task creation
      looks the project up by id without consulting `deleted`. */
  lemma DeletedProjectStillAcceptsTasks(s: Store, pk: ProjectId, input: TaskInput)
    requires DeleteProject(s, Some(pk)).result.Ok?
    requires TaskInputAcceptable(input)
    ensures var t := DeleteProject(s, Some(pk)).store;
      CreateTask(t, s.projects[pk].owner, Some(pk), input).result.Ok?
  {
    var t := DeleteProject(s, Some(pk)).store;
    assert t.projects[pk].owner == s.projects[pk].owner by {
      assert t.projects[pk].(deleted := false) == s.projects[pk];
    }
  }

  /** The task listing does not consult the project: the live tasks of a
      soft-deleted project are still listed. */
  lemma DeletedProjectTasksStillListed(s: Store, pk: ProjectId, id: TaskId)
    requires DeleteProject(s, Some(pk)).result.Ok?
    ensures ListedTask(DeleteProject(s, Some(pk)).store, pk, id) <==> ListedTask(s, pk, id)
  {
  }

  // ===========================================================================
  // Whole request sequences

  /** The writes a client can issue. */
  datatype Request =
    | PostProject(user: UserId, projectInput: ProjectInput)
    | PutProject(pk: Option<int>, projectPatch: ProjectPatch)
    | DropProject(pk: Option<int>)
    | PostTask(user: UserId, pid: Option<int>, task: TaskInput)
    | PutTask(user: UserId, pk: Option<int>, taskPatch: TaskPatch)
    | DropTask(pk: Option<int>)
    | InsertMember(project: ProjectId, member: UserId, granted: set<Flag>)

  function Step(s: Store, req: Request): Store {
    match req
    case PostProject(user, input) => CreateProject(s, user, input).store
    case PutProject(pk, patch) => UpdateProject(s, pk, patch).store
    case DropProject(pk) => DeleteProject(s, pk).store
    case PostTask(user, pid, input) => CreateTask(s, user, pid, input).store
    case PutTask(user, pk, patch) => UpdateTask(s, user, pk, patch).store
    case DropTask(pk) => DeleteTask(s, pk).store
    case InsertMember(pid, member, granted) => AddMember(s, pid, member, granted).store
  }

  function Run(s: Store, reqs: seq<Request>): Store
    decreases |reqs|
  {
    if |reqs| == 0 then s else Run(Step(s, reqs[0]), reqs[1..])
  }

  /** No row disappears, and no soft-deleted row comes back to life. */
  predicate DeletesKept(s: Store, t: Store) {
    && s.projects.Keys <= t.projects.Keys
    && (forall id :: id in s.projects && s.projects[id].deleted ==> t.projects[id].deleted)
    && s.tasks.Keys <= t.tasks.Keys
    && (forall id :: id in s.tasks && s.tasks[id].deleted ==> t.tasks[id].deleted)
    && |s.members| <= |t.members|
    && (forall i :: 0 <= i < |s.members| && s.members[i].deleted ==> t.members[i].deleted)
  }

  lemma DeletesKeptTransitive(a: Store, b: Store, c: Store)
    requires DeletesKept(a, b) && DeletesKept(b, c)
    ensures DeletesKept(a, c)
  {
  }

  /** Every write keeps the database constraints, removes no row, and never resets
      a `deleted` flag: no handler exposes that field. */
  lemma StepKeepsDeletes(s: Store, req: Request)
    requires Valid(s)
    ensures Valid(Step(s, req))
    ensures DeletesKept(s, Step(s, req))
  {
    match req
    case PostProject(user, input) =>
    case PutProject(pk, patch) =>
    case DropProject(pk) =>
    case PostTask(user, pid, input) =>
    case PutTask(user, pk, patch) =>
    case DropTask(pk) =>
    case InsertMember(pid, member, granted) =>
      var t := Step(s, req);
      assert forall i :: 0 <= i < |s.members| ==> t.members[i] == s.members[i];
  }

  /** Once soft-deleted, always soft-deleted, over any sequence of writes; and the
      database constraints hold throughout. */
  lemma {:induction false} RunKeepsDeletes(s: Store, reqs: seq<Request>)
    requires Valid(s)
    ensures Valid(Run(s, reqs))
    ensures DeletesKept(s, Run(s, reqs))
    decreases |reqs|
  {
    if |reqs| > 0 {
      var next := Step(s, reqs[0]);
      StepKeepsDeletes(s, reqs[0]);
      RunKeepsDeletes(next, reqs[1..]);
      DeletesKeptTransitive(s, next, Run(next, reqs[1..]));
    }
  }

  // ===========================================================================
  // Uniqueness

  /** A second membership row for the same (project, user) pair is refused,
      whatever flags it asks for, and leaves the store as it was. */
  lemma SecondMembershipRefused(s: Store, pid: ProjectId, user: UserId, first: set<Flag>, second: set<Flag>)
    requires AddMember(s, pid, user, first).result.Ok?
    ensures var t := AddMember(s, pid, user, first).store;
      AddMember(t, pid, user, second) == Reply(Err(Invalid(NotUnique(MemberPair))), t)
  {
    var t := AddMember(s, pid, user, first).store;
    assert RowFor(t.members[|s.members|], user, pid);
  }

  /** Once a project name is stored, creating another project whose name trims to
      the same text is refused as not unique, even after the first project is
      soft-deleted. */
  lemma DuplicateNameRefused(s: Store, owner: UserId, input: ProjectInput, other: UserId, again: ProjectInput)
    requires Valid(s)
    requires CreateProject(s, owner, input).result.Ok?
    requires Strip(again.name) == Strip(input.name)
    ensures var t := CreateProject(s, owner, input);
      && CreateProject(t.store, other, again).result == Err(Invalid(NotUnique(Name)))
      && CreateProject(DeleteProject(t.store, Some(t.result.value)).store, other, again).result
           == Err(Invalid(NotUnique(Name)))
  {
    var t := CreateProject(s, owner, input);
    var id := t.result.value;
    assert t.store.projects[id].name == Strip(input.name);
    var u := DeleteProject(t.store, Some(id)).store;
    if id != 0 {
      assert u.projects[id].(deleted := false) == t.store.projects[id];
      assert u.projects[id].name == Strip(input.name);
    }
  }

  // ===========================================================================
  // Submitted text

  /** Whitespace around a submitted name or description changes nothing: project
      creation answers and stores exactly as for the bare text. */
  lemma ProjectPaddingIgnored(s: Store, user: UserId, input: ProjectInput, pre: string, post: string)
    requires AllSpace(pre) && AllSpace(post)
    ensures CreateProject(s, user, ProjectInput(pre + input.name + post, input.description)) == CreateProject(s, user, input)
    ensures CreateProject(s, user, ProjectInput(input.name, pre + input.description + post)) == CreateProject(s, user, input)
  {
    StripIgnoresPadding(pre, input.name, post);
    StripIgnoresPadding(pre, input.description, post);
  }

  /** The same for a task's title and description. */
  lemma TaskPaddingIgnored(s: Store, user: UserId, pid: Option<int>, input: TaskInput, pre: string, post: string)
    requires AllSpace(pre) && AllSpace(post)
    ensures CreateTask(s, user, pid, input.(title := pre + input.title + post)) == CreateTask(s, user, pid, input)
    ensures CreateTask(s, user, pid, input.(description := pre + input.description + post)) == CreateTask(s, user, pid, input)
  {
    StripIgnoresPadding(pre, input.title, post);
    StripIgnoresPadding(pre, input.description, post);
  }

  /** Whitespace-only fields are blank. */
  lemma BlankScenario()
    ensures var s0 := EmptyStore({1, 2});
      && CreateProject(s0, 1, ProjectInput("   ", "   ")) == Reply(Err(Invalid(Blank(Name))), s0)
      && CreateProject(s0, 1, ProjectInput("Alpha", " \t ")) == Reply(Err(Invalid(Blank(Description))), s0)
  {
    StripKeepsTrimmed("Alpha");
    assert AllSpace("   ") && AllSpace(" \t ");
  }

  lemma AlphaAccepted()
    ensures CreateProject(EmptyStore({1, 2}), 1, ProjectInput("Alpha", "first")).result.Ok?
  {
    StripKeepsTrimmed("Alpha");
    StripKeepsTrimmed("first");
    assert !NameTaken(EmptyStore({1, 2}).projects, "Alpha", None);
  }

  lemma PaddedAlpha()
    ensures Strip(" Alpha") == Strip("Alpha")
  {
    assert AllSpace(" ") && AllSpace("");
    StripIgnoresPadding(" ", "Alpha", "");
    assert " " + "Alpha" + "" == " Alpha";
  }

  /** With "Alpha" stored, " Alpha" is not a new name. */
  lemma PaddedNameCollides()
    ensures var s1 := CreateProject(EmptyStore({1, 2}), 1, ProjectInput("Alpha", "first")).store;
      CreateProject(s1, 2, ProjectInput(" Alpha", "second")) == Reply(Err(Invalid(NotUnique(Name))), s1)
  {
    AlphaAccepted();
    PaddedAlpha();
    DuplicateNameRefused(EmptyStore({1, 2}), 1, ProjectInput("Alpha", "first"), 2, ProjectInput(" Alpha", "second"));
  }

  lemma LongNameTrimmed()
    ensures var long := seq(MaxNameLength, _ => 'a');
      Strip(long + " ") == long && TextAcceptable(long + " ", Some(MaxNameLength))
  {
    var long := seq(MaxNameLength, _ => 'a');
    StripKeepsTrimmed(long);
    assert AllSpace(" ") && AllSpace("");
    StripIgnoresPadding("", long, " ");
    assert "" + long + " " == long + " ";
  }

  /** A 255-character name followed by a space fits the 255-character column and
      is stored without the space. */
  lemma TrailingSpaceFits()
    ensures var long := seq(MaxNameLength, _ => 'a');
      var r := CreateProject(EmptyStore({1}), 1, ProjectInput(long + " ", "second"));
      && r.result == Ok(1)
      && r.store.projects[1].name == long
  {
    var long := seq(MaxNameLength, _ => 'a');
    LongNameTrimmed();
    StripKeepsTrimmed("second");
    assert !NameTaken(EmptyStore({1}).projects, long, None);
  }

  // ===========================================================================
  // The task guard and the access checks

  /** On a stored state, the owner-or-member guard of the task handlers answers
      exactly what `IsProjectMember` answers for a project id. */
  lemma TaskGuardIsMembershipCheck(s: Store, user: UserId, pid: ProjectId)
    requires Valid(s) && pid != 0
    ensures OwnerOrMember(s, user, pid) <==> IsProjectMember(s, user, Some(pid))
  {
    if IsProjectMember(s, user, Some(pid)) && !Owns(s, user, pid) {
      var i :| 0 <= i < |s.members| && RowFor(s.members[i], user, pid);
      assert MemberOk(s, s.members[i]);
    }
  }

  /** The task-creation handler does not consult `can_create`: a member whose row
      has every flag false is refused by `CanCreateTask` yet the handler creates
      the task. */
  lemma CreateFlagNotConsulted()
    ensures var s := Store({1, 2}, map[1 := Project("Alpha", "first", false, 1)],
                           [NewMember(1, 2, {})], map[], 2, 1);
      && Valid(s)
      && !CanCreateTask(s, 2, Some(1))
      && CreateTask(s, 2, Some(1), TaskInput("Write", "draft", None, Date(0))).result.Ok?
  {
    var s := Store({1, 2}, map[1 := Project("Alpha", "first", false, 1)],
                   [NewMember(1, 2, {})], map[], 2, 1);
    StripKeepsTrimmed("Write");
    StripKeepsTrimmed("draft");
    assert RowFor(s.members[0], 2, 1);
    assert IsFirstRow(s.members, 0, 2, 1);
  }

  /** User 1 creates "Alpha"; user 2, not a member, cannot add a task to it; once
      added as a member with `can_create`, user 2 can, and the task belongs to
      Alpha. */
  lemma AlphaScenario()
    ensures var s0 := EmptyStore({1, 2});
      var created := CreateProject(s0, 1, ProjectInput("Alpha", "first"));
      var alpha := created.result.value;
      var s1 := created.store;
      var input := TaskInput("Write", "draft", Some("In Progress"), Date(0));
      && created.result == Ok(1)
      && !CanCreateTask(s1, 2, Some(alpha))
      && CreateTask(s1, 2, Some(alpha), input) == Reply(Err(NotMemberOrOwner), s1)
      && var s2 := AddMember(s1, alpha, 2, {CreateFlag}).store;
      && CanCreateTask(s2, 2, Some(alpha))
      && var r := CreateTask(s2, 2, Some(alpha), input);
      && r.result.Ok?
      && r.store.tasks[r.result.value].project == Some(alpha)
      && r.store.tasks[r.result.value].status == InProgress
  {
    var s0 := EmptyStore({1, 2});
    StripKeepsTrimmed("Alpha");
    StripKeepsTrimmed("first");
    StripKeepsTrimmed("Write");
    StripKeepsTrimmed("draft");
    assert !NameTaken(s0.projects, "Alpha", None);
    var s1 := CreateProject(s0, 1, ProjectInput("Alpha", "first")).store;
    assert !HasRow(s1.members, 2, 1);
    var s2 := AddMember(s1, 1, 2, {CreateFlag}).store;
    assert RowFor(s2.members[0], 2, 1);
    assert IsFirstRow(s2.members, 0, 2, 1);
    StatusLabelRoundTrip(InProgress, InProgress);
  }
}

=== FILE: models.dfy ===
/** The records of the API (`Project`, `ProjectMember`, `Task`), their defaults and
    length bounds, the task status choices, and the store that holds them together
    with the database constraints every stored state satisfies.
 */
module Models {
  import opened Outcomes

  type UserId = int
  type ProjectId = int
  type TaskId = int

  /** `max_length` of Project.name. */
  const MaxNameLength := 255
  /** `max_length` of Task.title. */
  const MaxTitleLength := 100
  /** `max_length` of Task.status. */
  const MaxStatusLength := 20

  /** A route keyword that is absent or the integer 0: Python's `not pk` holds of both. */
  predicate Absent(k: Option<int>) {
    k.None? || k.value == 0
  }

  // ---------------------------------------------------------------------------
  // Task status choices

  datatype Status = ToDo | InProgress | Done

  /** The default of Task.status. */
  const DefaultStatus := ToDo

  /** The stored text of a status choice. */
  function Label(st: Status): (text: string)
    ensures 0 < |text| <= MaxStatusLength
  {
    match st
    case ToDo => "To Do"
    case InProgress => "In Progress"
    case Done => "Done"
  }

  /** The choice validation of Task.status: a submitted text is accepted only when
      it is the label of one of the three choices. */
  function ParseStatus(text: string): (st: Option<Status>)
    ensures st.Some? ==> Label(st.value) == text
    ensures st.None? ==> forall c: Status :: Label(c) != text
  {
    if text == "To Do" then Some(ToDo)
    else if text == "In Progress" then Some(InProgress)
    else if text == "Done" then Some(Done)
    else None
  }

  /** Parsing a label gives back its status, and distinct statuses have distinct labels. */
  lemma StatusLabelRoundTrip(st: Status, other: Status)
    ensures ParseStatus(Label(st)) == Some(st)
    ensures Label(st) == Label(other) ==> st == other
  {
    match st
    case ToDo =>
    case InProgress =>
    case Done =>
  }

  // ---------------------------------------------------------------------------
  // Records

  /** Task.due_date: a calendar date, kept opaque. */
  datatype Date = Date(ordinal: int)

  datatype Project = Project(name: string, description: string, deleted: bool, owner: UserId)

  datatype Member = Member(
    project: ProjectId,
    user: UserId,
    canCreate: bool,
    canUpdate: bool,
    canDelete: bool,
    addMembers: bool,
    deleted: bool)

  datatype Task = Task(
    project: Option<ProjectId>,
    title: string,
    description: string,
    status: Status,
    dueDate: Date,
    deleted: bool,
    createdBy: UserId)

  /** The four per-action flags of a membership row. */
  datatype Flag = CreateFlag | UpdateFlag | DeleteFlag | AddMembersFlag

  function FlagOf(m: Member, f: Flag): bool {
    match f
    case CreateFlag => m.canCreate
    case UpdateFlag => m.canUpdate
    case DeleteFlag => m.canDelete
    case AddMembersFlag => m.addMembers
  }

  /** A membership row as the model creates it: every flag not listed in `granted`
      takes its default, false, and the row starts live. */
  function NewMember(project: ProjectId, user: UserId, granted: set<Flag>): (m: Member)
    ensures m.project == project && m.user == user && !m.deleted
    ensures forall f :: FlagOf(m, f) <==> f in granted
  {
    Member(project, user,
           CreateFlag in granted, UpdateFlag in granted, DeleteFlag in granted, AddMembersFlag in granted,
           false)
  }

  /** The persistent state: registered users, projects and tasks by primary key,
      membership rows in primary-key order, and the next primary keys to hand out. */
  datatype Store = Store(
    users: set<UserId>,
    projects: map<ProjectId, Project>,
    members: seq<Member>,
    tasks: map<TaskId, Task>,
    nextProject: int,
    nextTask: int)

  // ---------------------------------------------------------------------------
  // Database constraints

  /** `unique=True` on Project.name, over every row whether deleted or not. */
  predicate NamesUnique(projects: map<ProjectId, Project>) {
    forall a, b :: a in projects && b in projects && a != b ==> projects[a].name != projects[b].name
  }

  /** `unique_together = ("project", "user")`, over every row whether deleted or not. */
  predicate PairsUnique(rows: seq<Member>) {
    forall i, j :: 0 <= i < j < |rows| ==> rows[i].project != rows[j].project || rows[i].user != rows[j].user
  }

  predicate ProjectOk(s: Store, p: Project) {
    |p.name| <= MaxNameLength && p.owner in s.users
  }

  predicate MemberOk(s: Store, m: Member) {
    m.project in s.projects && m.user in s.users
  }

  predicate TaskOk(s: Store, t: Task) {
    && |t.title| <= MaxTitleLength
    && (t.project.Some? ==> t.project.value in s.projects)
    && t.createdBy in s.users
  }

  /** Every stored state: keys come from the auto-increment counters, references
      resolve, lengths respect `max_length`, and both uniqueness constraints hold. */
  predicate Valid(s: Store) {
    && 1 <= s.nextProject
    && 1 <= s.nextTask
    && (forall id :: id in s.projects ==> 1 <= id < s.nextProject && ProjectOk(s, s.projects[id]))
    && NamesUnique(s.projects)
    && (forall i :: 0 <= i < |s.members| ==> MemberOk(s, s.members[i]))
    && PairsUnique(s.members)
    && (forall id :: id in s.tasks ==> 1 <= id < s.nextTask && TaskOk(s, s.tasks[id]))
  }

  /** The empty database. */
  function EmptyStore(users: set<UserId>): (s: Store)
    ensures Valid(s) && s.users == users
    ensures s.projects == map[] && s.members == [] && s.tasks == map[]
  {
    Store(users, map[], [], map[], 1, 1)
  }

  // ---------------------------------------------------------------------------
  // Membership rows

  /** Row `m` is a membership of `user` in project `pid`. */
  predicate RowFor(m: Member, user: UserId, pid: ProjectId) {
    m.user == user && m.project == pid
  }

  /** Some membership row, deleted or not, links `user` to project `pid`. */
  predicate HasRow(rows: seq<Member>, user: UserId, pid: ProjectId) {
    exists i :: 0 <= i < |rows| && RowFor(rows[i], user, pid)
  }

  /** What a write answers, together with the state it leaves behind. */
  datatype Reply<+T> = Reply(result: Result<T>, store: Store)

  /** Inserting a membership row: both references must resolve, and the database
      refuses a second row for a (project, user) pair that already has one. On
      success the answer is the new row's position. */
  function AddMember(s: Store, project: ProjectId, user: UserId, granted: set<Flag>): (r: Reply<nat>)
    ensures r.result.Ok? <==> project in s.projects && user in s.users && !HasRow(s.members, user, project)
    ensures r.result.Ok? ==>
      && r.result.value == |s.members|
      && r.store == s.(members := s.members + [NewMember(project, user, granted)])
    ensures r.result.Err? ==> r.store == s
    ensures Valid(s) ==> Valid(r.store)
  {
    if project !in s.projects then Reply(Err(Invalid(UnknownRef(ProjectRef))), s)
    else if user !in s.users then Reply(Err(Invalid(UnknownRef(UserRef))), s)
    else if HasRow(s.members, user, project) then Reply(Err(Invalid(NotUnique(MemberPair))), s)
    else Reply(Ok(|s.members|), s.(members := s.members + [NewMember(project, user, granted)]))
  }
}

=== FILE: outcomes.dfy ===
/** Failure-carrying values shared by the record layer and the request handlers.

    The handlers of the API answer with an HTTP response; here a response is
    reduced to a `Result`: either the value the handler produced or the kind of
    failure it reported.
 */
module Outcomes {

  datatype Option<+T> = None | Some(value: T)

  /** The model fields a serializer or a database constraint checks. */
  datatype Field =
    | Name          // Project.name
    | Description   // Project.description and Task.description
    | Title         // Task.title
    | StatusField   // Task.status
    | Owner         // Project.owner (a user reference)
    | ProjectRef    // Task.project and ProjectMember.project
    | UserRef       // ProjectMember.user
    | MemberPair    // the (project, user) pair of a ProjectMember

  /** Why a submitted value was refused (a 400 response carrying `serializer.errors`). */
  datatype Violation =
    | Blank(field: Field)
    | TooLong(field: Field)
    | NullCharacter(field: Field)
    | NotUnique(field: Field)
    | BadChoice(field: Field)
    | UnknownRef(field: Field)

  /** The failures a handler reports. */
  datatype Error =
    | MissingId            // no id in the route or the query string
    | NotFound             // the id does not name a stored row
    | AlreadyDeleted       // a second soft delete of the same row
    | NotMemberOrOwner     // the task guard refused the acting user
    | Invalid(violation: Violation)
    | TaskWithoutProject   // the task has no project, so its guard cannot be evaluated

  datatype Result<+T> = Ok(value: T) | Err(error: Error)
}

=== FILE: permissions.dfy ===
/** The five access checks of the API. Each takes the acting user and the
    `project_id` route keyword and answers allow (true) or deny (false) by
    reading the store; none of them writes.

    All five follow one priority-ordered rule: no project id denies; the owner of
    the project is allowed; anyone else is judged by their membership row. The
    lookups never consult a `deleted` flag.
 */
module Permissions {
  import opened Outcomes
  import opened Models

  /** `user` owns the project stored under `pid`, whether or not it is soft-deleted. */
  predicate Owns(s: Store, user: UserId, pid: ProjectId) {
    pid in s.projects && s.projects[pid].owner == user
  }

  /** Position `i` holds the first membership row, in primary-key order, for the pair. */
  predicate IsFirstRow(rows: seq<Member>, i: int, user: UserId, pid: ProjectId) {
    && 0 <= i < |rows|
    && RowFor(rows[i], user, pid)
    && forall j :: 0 <= j < i ==> !RowFor(rows[j], user, pid)
  }

  /** `.filter(user=user, project_id=pid).first()`: the position of the first
      matching row, if there is one. */
  function FirstRow(rows: seq<Member>, user: UserId, pid: ProjectId): (r: Option<nat>)
    ensures r.Some? ==> IsFirstRow(rows, r.value, user, pid)
    ensures r.None? <==> !HasRow(rows, user, pid)
  {
    if |rows| == 0 then None
    else if RowFor(rows[0], user, pid) then Some(0)
    else
      match FirstRow(rows[1..], user, pid)
      case None =>
        assert forall i :: 1 <= i < |rows| ==> rows[i] == rows[1..][i - 1];
        None
      case Some(i) =>
        assert rows[1..][i] == rows[i + 1];
        Some(i + 1)
  }

  /** The shared shape of the four flag checks: deny without a project id, allow
      the owner, otherwise read flag `f` of the first membership row. */
  function FlagCheck(s: Store, user: UserId, pid: Option<int>, f: Flag): (allowed: bool)
    ensures Absent(pid) ==> !allowed
    ensures !Absent(pid) ==>
      (allowed <==> Owns(s, user, pid.value)
                    || exists i :: IsFirstRow(s.members, i, user, pid.value) && FlagOf(s.members[i], f))
  {
    if Absent(pid) then false
    else if Owns(s, user, pid.value) then true
    else
      match FirstRow(s.members, user, pid.value)
      case None => false
      case Some(i) => FlagOf(s.members[i], f)
  }

  /** Viewing access: the owner, or anyone with a membership row (`.exists()`). */
  function IsProjectMember(s: Store, user: UserId, pid: Option<int>): (allowed: bool)
    ensures Absent(pid) ==> !allowed
    ensures !Absent(pid) ==> (allowed <==> Owns(s, user, pid.value) || HasRow(s.members, user, pid.value))
  {
    if Absent(pid) then false
    else if Owns(s, user, pid.value) then true
    else FirstRow(s.members, user, pid.value).Some?
  }

  function CanCreateTask(s: Store, user: UserId, pid: Option<int>): (allowed: bool)
    ensures Absent(pid) ==> !allowed
    ensures !Absent(pid) ==>
      (allowed <==> Owns(s, user, pid.value)
                    || exists i :: IsFirstRow(s.members, i, user, pid.value) && s.members[i].canCreate)
  {
    FlagCheck(s, user, pid, CreateFlag)
  }

  function CanUpdateTask(s: Store, user: UserId, pid: Option<int>): (allowed: bool)
    ensures Absent(pid) ==> !allowed
    ensures !Absent(pid) ==>
      (allowed <==> Owns(s, user, pid.value)
                    || exists i :: IsFirstRow(s.members, i, user, pid.value) && s.members[i].canUpdate)
  {
    FlagCheck(s, user, pid, UpdateFlag)
  }

  function CanDeleteTask(s: Store, user: UserId, pid: Option<int>): (allowed: bool)
    ensures Absent(pid) ==> !allowed
    ensures !Absent(pid) ==>
      (allowed <==> Owns(s, user, pid.value)
                    || exists i :: IsFirstRow(s.members, i, user, pid.value) && s.members[i].canDelete)
  {
    FlagCheck(s, user, pid, DeleteFlag)
  }

  function CanAddMembers(s: Store, user: UserId, pid: Option<int>): (allowed: bool)
    ensures Absent(pid) ==> !allowed
    ensures !Absent(pid) ==>
      (allowed <==> Owns(s, user, pid.value)
                    || exists i :: IsFirstRow(s.members, i, user, pid.value) && s.members[i].addMembers)
  {
    FlagCheck(s, user, pid, AddMembersFlag)
  }

  /** The check a flag guards. */
  function Check(s: Store, user: UserId, pid: Option<int>, f: Flag): bool {
    match f
    case CreateFlag => CanCreateTask(s, user, pid)
    case UpdateFlag => CanUpdateTask(s, user, pid)
    case DeleteFlag => CanDeleteTask(s, user, pid)
    case AddMembersFlag => CanAddMembers(s, user, pid)
  }

  // ---------------------------------------------------------------------------
  // Properties of the checks

  /** The owner of a stored project passes all five checks, whatever membership
      rows exist for them and whatever their flags say. */
  lemma OwnerBypass(s: Store, user: UserId, pid: ProjectId, f: Flag)
    requires pid != 0 && Owns(s, user, pid)
    ensures IsProjectMember(s, user, Some(pid))
    ensures Check(s, user, Some(pid), f)
  {
  }

  /** With the pair constraint in force, "the first row" is "the row": a non-owner
      passes a flag check exactly when a membership row for the pair exists and
      carries that flag. */
  lemma TheRowDecides(s: Store, user: UserId, pid: ProjectId, f: Flag)
    requires PairsUnique(s.members)
    requires pid != 0 && !Owns(s, user, pid)
    ensures Check(s, user, Some(pid), f) <==>
              exists i :: 0 <= i < |s.members| && RowFor(s.members[i], user, pid) && FlagOf(s.members[i], f)
  {
    var rows := s.members;
    if i :| 0 <= i < |rows| && RowFor(rows[i], user, pid) && FlagOf(rows[i], f) {
      assert IsFirstRow(rows, i, user, pid);
    }
  }

  /** A non-owner passes a flag check only if they pass the membership check. */
  lemma FlagImpliesMembership(s: Store, user: UserId, pid: Option<int>, f: Flag)
    ensures Check(s, user, pid, f) ==> IsProjectMember(s, user, pid)
  {
    if Check(s, user, pid, f) && !Owns(s, user, pid.value) {
      var i :| IsFirstRow(s.members, i, user, pid.value) && FlagOf(s.members[i], f);
      assert RowFor(s.members[i], user, pid.value);
    }
  }

  /** A non-owner with no membership row fails every check. */
  lemma StrangerDenied(s: Store, user: UserId, pid: Option<int>, f: Flag)
    requires !Absent(pid) && !Owns(s, user, pid.value) && !HasRow(s.members, user, pid.value)
    ensures !IsProjectMember(s, user, pid) && !Check(s, user, pid, f)
  {
    FlagImpliesMembership(s, user, pid, f);
  }

  // ---------------------------------------------------------------------------
  // What the checks read

  /** Two row sequences that agree on who is a member of what, row by row. */
  predicate SameKeys(a: seq<Member>, b: seq<Member>) {
    |a| == |b| && forall i :: 0 <= i < |a| ==> a[i].user == b[i].user && a[i].project == b[i].project
  }

  /** The first-row lookup reads only the (project, user) pair of each row. */
  lemma {:induction false} FirstRowReadsKeys(a: seq<Member>, b: seq<Member>, user: UserId, pid: ProjectId)
    requires SameKeys(a, b)
    ensures FirstRow(a, user, pid) == FirstRow(b, user, pid)
    decreases |a|
  {
    if |a| > 0 && !RowFor(a[0], user, pid) {
      assert SameKeys(a[1..], b[1..]) by {
        forall i | 0 <= i < |a[1..]|
          ensures a[1..][i].user == b[1..][i].user && a[1..][i].project == b[1..][i].project
        {
          assert a[1..][i] == a[i + 1] && b[1..][i] == b[i + 1];
        }
      }
      FirstRowReadsKeys(a[1..], b[1..], user, pid);
    }
  }

  /** Row `i` with flag `f` set to `b`. */
  function WithFlag(m: Member, f: Flag, b: bool): Member {
    match f
    case CreateFlag => m.(canCreate := b)
    case UpdateFlag => m.(canUpdate := b)
    case DeleteFlag => m.(canDelete := b)
    case AddMembersFlag => m.(addMembers := b)
  }

  /** Changing one flag of one membership row leaves the membership check and the
      other three flag checks unchanged for every user and project. */
  lemma FlagIndependence(s: Store, i: int, f: Flag, b: bool, user: UserId, pid: Option<int>, g: Flag)
    requires 0 <= i < |s.members| && g != f
    ensures var t := s.(members := s.members[i := WithFlag(s.members[i], f, b)]);
      && IsProjectMember(t, user, pid) == IsProjectMember(s, user, pid)
      && Check(t, user, pid, g) == Check(s, user, pid, g)
  {
    var t := s.(members := s.members[i := WithFlag(s.members[i], f, b)]);
    if !Absent(pid) {
      FirstRowReadsKeys(s.members, t.members, user, pid.value);
      match FirstRow(s.members, user, pid.value)
      case None =>
      case Some(k) =>
        assert FlagOf(t.members[k], g) == FlagOf(s.members[k], g);
    }
  }

  /** The changed flag decides its own check for a non-owner whose row it is: the
      check now answers exactly the new flag value. */
  lemma FlagDecidesOwnCheck(s: Store, i: int, f: Flag, b: bool)
    requires PairsUnique(s.members) && 0 <= i < |s.members|
    requires s.members[i].project != 0 && !Owns(s, s.members[i].user, s.members[i].project)
    ensures var t := s.(members := s.members[i := WithFlag(s.members[i], f, b)]);
      Check(t, s.members[i].user, Some(s.members[i].project), f) == b
  {
    var m := s.members[i];
    var t := s.(members := s.members[i := WithFlag(m, f, b)]);
    assert PairsUnique(t.members) by {
      forall j, k | 0 <= j < k < |t.members|
        ensures t.members[j].project != t.members[k].project || t.members[j].user != t.members[k].user
      {
        assert t.members[j].project == s.members[j].project && t.members[j].user == s.members[j].user;
        assert t.members[k].project == s.members[k].project && t.members[k].user == s.members[k].user;
      }
    }
    assert RowFor(t.members[i], m.user, m.project) && FlagOf(t.members[i], f) == b;
    TheRowDecides(t, m.user, m.project, f);
  }

  /** The two stores differ at most in `deleted` flags. */
  predicate SameButDeleted(s: Store, t: Store) {
    && s.projects.Keys == t.projects.Keys
    && (forall id :: id in s.projects ==> s.projects[id].(deleted := false) == t.projects[id].(deleted := false))
    && |s.members| == |t.members|
    && (forall i :: 0 <= i < |s.members| ==> s.members[i].(deleted := false) == t.members[i].(deleted := false))
  }

  /** No check reads a `deleted` flag: a soft-deleted project still lets its owner
      through, and a soft-deleted membership row still grants what its flags say. */
  lemma DeletedFlagsIgnored(s: Store, t: Store, user: UserId, pid: Option<int>, f: Flag)
    requires SameButDeleted(s, t)
    ensures IsProjectMember(t, user, pid) == IsProjectMember(s, user, pid)
    ensures Check(t, user, pid, f) == Check(s, user, pid, f)
  {
    if !Absent(pid) {
      var p := pid.value;
      if p in s.projects {
        assert s.projects[p].owner == s.projects[p].(deleted := false).owner;
        assert t.projects[p].owner == t.projects[p].(deleted := false).owner;
      }
      assert SameKeys(s.members, t.members) by {
        forall i | 0 <= i < |s.members|
          ensures s.members[i].user == t.members[i].user && s.members[i].project == t.members[i].project
        {
          assert s.members[i].(deleted := false).user == t.members[i].(deleted := false).user;
          assert s.members[i].(deleted := false).project == t.members[i].(deleted := false).project;
        }
      }
      FirstRowReadsKeys(s.members, t.members, user, p);
      match FirstRow(s.members, user, p)
      case None =>
      case Some(k) =>
        assert FlagOf(s.members[k], f) == FlagOf(s.members[k].(deleted := false), f);
        assert FlagOf(t.members[k], f) == FlagOf(t.members[k].(deleted := false), f);
    }
  }
}

=== FILE: text.dfy ===
/** Whitespace trimming of submitted text.

    Every text field of the serializers (project name and description, task
    title and description) trims leading and trailing whitespace before it checks
    blankness, length or uniqueness, and stores the trimmed text. Whitespace is
    what Python's `str.strip()` removes.
 */
module Text {

  /** The characters Python's `str.isspace()` accepts. */
  predicate IsSpace(c: char) {
    var n := c as int;
    || 0x09 <= n <= 0x0D        // tab, line feed, vertical tab, form feed, carriage return
    || 0x1C <= n <= 0x20        // file/group/record/unit separators, space
    || n == 0x85 || n == 0xA0   // next line, no-break space
    || n == 0x1680
    || 0x2000 <= n <= 0x200A    // en quad .. hair space
    || n == 0x2028 || n == 0x2029 || n == 0x202F || n == 0x205F || n == 0x3000
  }

  predicate AllSpace(x: string) {
    forall k :: 0 <= k < |x| ==> IsSpace(x[k])
  }

  /** The end of the run of whitespace that starts at `i`. */
  function SkipForward(x: string, i: nat): (n: nat)
    requires i <= |x|
    ensures i <= n <= |x|
    ensures forall k :: i <= k < n ==> IsSpace(x[k])
    ensures n < |x| ==> !IsSpace(x[n])
    decreases |x| - i
  {
    if i == |x| || !IsSpace(x[i]) then i else SkipForward(x, i + 1)
  }

  /** The start of the run of whitespace that ends at `j`, not going below `lo`. */
  function SkipBackward(x: string, lo: nat, j: nat): (m: nat)
    requires lo <= j <= |x|
    ensures lo <= m <= j
    ensures forall k :: m <= k < j ==> IsSpace(x[k])
    ensures m > lo ==> !IsSpace(x[m - 1])
    decreases j
  {
    if j == lo || !IsSpace(x[j - 1]) then j else SkipBackward(x, lo, j - 1)
  }

  /** `str.strip()`: the text without its leading and trailing whitespace. */
  function Strip(x: string): (r: string)
    ensures |r| <= |x|
    ensures |r| == 0 <==> AllSpace(x)
    ensures |r| > 0 ==> !IsSpace(r[0]) && !IsSpace(r[|r| - 1])
  {
    var a := SkipForward(x, 0);
    var b := SkipBackward(x, a, |x|);
    assert a == b ==> AllSpace(x) by {
      if a == b && a < |x| {
        assert false;
      }
    }
    x[a..b]
  }

  /** Only whitespace is removed, and only from the two ends: the input is the
      result with whitespace-only text on either side. */
  lemma StripRemovesOnlyEnds(x: string)
    ensures exists pre, post :: AllSpace(pre) && AllSpace(post) && x == pre + Strip(x) + post
  {
    var a := SkipForward(x, 0);
    var b := SkipBackward(x, a, |x|);
    assert AllSpace(x[..a]) by {
      forall k | 0 <= k < a ensures IsSpace(x[..a][k]) {
        assert x[..a][k] == x[k];
      }
    }
    assert AllSpace(x[b..]) by {
      forall k | 0 <= k < |x| - b ensures IsSpace(x[b..][k]) {
        assert x[b..][k] == x[b + k];
      }
    }
    assert Strip(x) == x[a..b];
    Reassemble(x, a, b);
    assert AllSpace(x[..a]) && AllSpace(x[b..]) && x == x[..a] + Strip(x) + x[b..];
  }

  /** Cutting a sequence at two points and joining the pieces gives it back. */
  lemma Reassemble(x: string, a: nat, b: nat)
    requires a <= b <= |x|
    ensures x == x[..a] + x[a..b] + x[b..]
  {
    assert x[..b] == x[..a] + x[a..b];
  }

  /** Text without whitespace at either end is kept as it is. */
  lemma StripKeepsTrimmed(x: string)
    requires |x| > 0 && !IsSpace(x[0]) && !IsSpace(x[|x| - 1])
    ensures Strip(x) == x
  {
    assert SkipForward(x, 0) == 0;
    assert SkipBackward(x, 0, |x|) == |x|;
  }

  /** Trimming twice is trimming once. */
  lemma StripIdempotent(x: string)
    ensures Strip(Strip(x)) == Strip(x)
  {
    var r := Strip(x);
    if |r| > 0 {
      StripKeepsTrimmed(r);
    }
  }

  /** `SkipForward` stops at the first non-whitespace character. */
  lemma {:induction false} SkipForwardStops(x: string, i: nat, a: nat)
    requires i <= a < |x| && !IsSpace(x[a])
    requires forall k :: i <= k < a ==> IsSpace(x[k])
    ensures SkipForward(x, i) == a
    decreases a - i
  {
    if i < a {
      SkipForwardStops(x, i + 1, a);
    }
  }

  /** `SkipBackward` stops just after the last non-whitespace character. */
  lemma {:induction false} SkipBackwardStops(x: string, lo: nat, j: nat, b: nat)
    requires lo < b <= j <= |x| && !IsSpace(x[b - 1])
    requires forall k :: b <= k < j ==> IsSpace(x[k])
    ensures SkipBackward(x, lo, j) == b
    decreases j - b
  {
    if b < j {
      SkipBackwardStops(x, lo, j - 1, b);
    }
  }

  /** The trimmed text is the slice between whitespace-only ends that starts and
      ends with a non-whitespace character. */
  lemma StripIsSlice(x: string, a: nat, b: nat)
    requires a < b <= |x| && !IsSpace(x[a]) && !IsSpace(x[b - 1])
    requires forall k :: 0 <= k < a ==> IsSpace(x[k])
    requires forall k :: b <= k < |x| ==> IsSpace(x[k])
    ensures Strip(x) == x[a..b]
  {
    SkipForwardStops(x, 0, a);
    SkipBackwardStops(x, a, |x|, b);
  }

  lemma AllSpaceJoin(pre: string, x: string, post: string)
    requires AllSpace(pre) && AllSpace(x) && AllSpace(post)
    ensures AllSpace(pre + x + post)
  {
    var y := pre + x + post;
    forall k | 0 <= k < |y| ensures IsSpace(y[k]) {
      if k < |pre| {
        assert y[k] == pre[k];
      } else if k < |pre| + |x| {
        assert y[k] == x[k - |pre|];
      } else {
        assert y[k] == post[k - |pre| - |x|];
      }
    }
  }

  /** Padding shifts the non-whitespace core of a text without changing it. */
  lemma PaddedSlice(pre: string, x: string, post: string, a: nat, b: nat)
    requires AllSpace(pre) && AllSpace(post)
    requires a < b <= |x| && !IsSpace(x[a]) && !IsSpace(x[b - 1])
    requires forall k :: 0 <= k < a ==> IsSpace(x[k])
    requires forall k :: b <= k < |x| ==> IsSpace(x[k])
    ensures Strip(pre + x + post) == x[a..b]
  {
    var y := pre + x + post;
    var n := |pre|;
    assert y[n + a] == x[a] && y[n + b - 1] == x[b - 1];
    forall k | 0 <= k < n + a ensures IsSpace(y[k]) {
      if k < n {
        assert y[k] == pre[k];
      } else {
        assert y[k] == x[k - n];
      }
    }
    forall k | n + b <= k < |y| ensures IsSpace(y[k]) {
      if k < n + |x| {
        assert y[k] == x[k - n];
      } else {
        assert y[k] == post[k - n - |x|];
      }
    }
    StripIsSlice(y, n + a, n + b);
    assert y[n + a..n + b] == x[a..b];
  }

  /** Whitespace around a text does not change what it trims to. */
  lemma StripIgnoresPadding(pre: string, x: string, post: string)
    requires AllSpace(pre) && AllSpace(post)
    ensures Strip(pre + x + post) == Strip(x)
  {
    if AllSpace(x) {
      AllSpaceJoin(pre, x, post);
    } else {
      var a := SkipForward(x, 0);
      var b := SkipBackward(x, a, |x|);
      assert Strip(x) == x[a..b];
      PaddedSlice(pre, x, post, a, b);
    }
  }
}

=== FILE: views.dfy ===
/** The request handlers of `ProjectAPIView` and `TaskAPIView`.

    Each write handler is a function from the store (and the request's inputs) to
    a `Reply`: the answer and the store it leaves. The list handlers only read and
    are methods that collect the visible rows. The acting user is an explicit
    parameter; the handlers run no permission check of their own beyond the
    owner-or-member guard of task creation and task update.
 */
module Views {
  import opened Outcomes
  import opened Models
  import opened Text

  // ===========================================================================
  // Submitted text

  /** What every text field of the serializers accepts: the trimmed value is not
      blank, fits the column when the column is bounded, and has no NUL character.
      The checks run on the trimmed value, and the trimmed value is stored. */
  predicate TextAcceptable(text: string, maxLength: Option<nat>) {
    var x := Strip(text);
    && 0 < |x|
    && (maxLength.Some? ==> |x| <= maxLength.value)
    && '\0' !in x
  }

  /** The field-level checks of a text field, one violation reported. */
  function CheckText(field: Field, text: string, maxLength: Option<nat>): (v: Option<Violation>)
    ensures v.None? <==> TextAcceptable(text, maxLength)
    ensures v.Some? ==> v.value.field == field
    ensures v == Some(Blank(field)) <==> AllSpace(text)
  {
    var x := Strip(text);
    if |x| == 0 then Some(Blank(field))
    else if maxLength.Some? && |x| > maxLength.value then Some(TooLong(field))
    else if '\0' in x then Some(NullCharacter(field))
    else None
  }

  /** A non-empty set of keys has a key to pick. */
  lemma SomeElement(s: set<int>)
    requires s != {}
    ensures exists x :: x in s
  {
    if forall x :: x !in s {
      assert false;
    }
  }

  // ===========================================================================
  // Projects

  /** A project the list handler shows to `user`: stored, live, and owned by them. */
  predicate ListedProject(s: Store, user: UserId, id: ProjectId) {
    id in s.projects && !s.projects[id].deleted && s.projects[id].owner == user
  }

  /** `GET /projects/`: the live projects owned by `user`. */
  method ListProjects(s: Store, user: UserId) returns (listed: map<ProjectId, Project>)
    ensures forall id :: id in listed <==> ListedProject(s, user, id)
    ensures forall id :: id in listed ==> id in s.projects && listed[id] == s.projects[id]
  {
    listed := map[];
    var todo := s.projects.Keys;
    while todo != {}
      invariant todo <= s.projects.Keys
      invariant forall id :: id in listed <==> ListedProject(s, user, id) && id !in todo
      invariant forall id :: id in listed ==> id in s.projects && listed[id] == s.projects[id]
      decreases todo
    {
      SomeElement(todo);
      var id :| id in todo;
      var p := s.projects[id];
      if !p.deleted && p.owner == user {
        listed := listed[id := p];
      }
      todo := todo - {id};
    }
  }

  datatype ProjectInput = ProjectInput(name: string, description: string)

  /** The fields a partial project update may carry; absent fields keep their value.
      `deleted` is not among them. */
  datatype ProjectPatch = ProjectPatch(name: Option<string>, description: Option<string>, owner: Option<UserId>)

  /** A project other than `self` already uses `name`, deleted or not. */
  predicate NameTaken(projects: map<ProjectId, Project>, name: string, self: Option<ProjectId>) {
    exists id :: id in projects && Some(id) != self && projects[id].name == name
  }

  /** What the serializer accepts for a submitted project name: an acceptable text
      whose trimmed value no other project uses. */
  predicate NameAcceptable(s: Store, name: string, self: Option<ProjectId>) {
    TextAcceptable(name, Some(MaxNameLength)) && !NameTaken(s.projects, Strip(name), self)
  }

  function CheckName(s: Store, name: string, self: Option<ProjectId>): (v: Option<Violation>)
    ensures v.None? <==> NameAcceptable(s, name, self)
    ensures v.Some? ==> v.value.field == Name
    ensures v == Some(NotUnique(Name)) <==>
      TextAcceptable(name, Some(MaxNameLength)) && NameTaken(s.projects, Strip(name), self)
  {
    match CheckText(Name, name, Some(MaxNameLength))
    case Some(v) => Some(v)
    case None => if NameTaken(s.projects, Strip(name), self) then Some(NotUnique(Name)) else None
  }

  predicate ProjectAcceptable(s: Store, owner: UserId, input: ProjectInput) {
    NameAcceptable(s, input.name, None) && TextAcceptable(input.description, None) && owner in s.users
  }

  /** `POST /projects/`: create a live project owned by the acting user under the
      next primary key. */
  function CreateProject(s: Store, user: UserId, input: ProjectInput): (r: Reply<ProjectId>)
    ensures r.result.Ok? <==> ProjectAcceptable(s, user, input)
    ensures r.result.Ok? ==>
      var id := r.result.value;
      && (Valid(s) ==> id !in s.projects)
      && r.store == s.(projects := s.projects[id := Project(Strip(input.name), Strip(input.description), false, user)],
                       nextProject := id + 1)
    ensures r.result.Err? ==> r.store == s
    ensures Valid(s) ==> Valid(r.store)
  {
    match CheckName(s, input.name, None)
    case Some(v) => Reply(Err(Invalid(v)), s)
    case None =>
      match CheckText(Description, input.description, None)
      case Some(v) => Reply(Err(Invalid(v)), s)
      case None =>
      if user !in s.users then Reply(Err(Invalid(UnknownRef(Owner))), s)
      else
        var id := s.nextProject;
        var t := s.(projects := s.projects[id := Project(Strip(input.name), Strip(input.description), false, user)],
                    nextProject := id + 1);
        assert Valid(s) ==> Valid(t) by {
          if Valid(s) {
            assert forall k :: k in s.projects ==> k != id;
            assert forall i :: 0 <= i < |t.members| ==> MemberOk(t, t.members[i]) by {
              forall i | 0 <= i < |t.members| ensures MemberOk(t, t.members[i]) {
                assert MemberOk(s, s.members[i]);
              }
            }
            assert forall k :: k in t.tasks ==> TaskOk(t, t.tasks[k]) by {
              forall k | k in t.tasks ensures TaskOk(t, t.tasks[k]) {
                assert TaskOk(s, s.tasks[k]);
              }
            }
          }
        }
        Reply(Ok(id), t)
  }

  predicate ProjectPatchAcceptable(s: Store, pk: ProjectId, patch: ProjectPatch) {
    && (patch.name.Some? ==> NameAcceptable(s, patch.name.value, Some(pk)))
    && (patch.description.Some? ==> TextAcceptable(patch.description.value, None))
    && (patch.owner.Some? ==> patch.owner.value in s.users)
  }

  /** The partial merge of `serializer.save()` with `partial=True`: supplied text is
      stored trimmed. */
  function ApplyProjectPatch(p: Project, patch: ProjectPatch): (q: Project)
    ensures q.deleted == p.deleted
    ensures q.name == (if patch.name.Some? then Strip(patch.name.value) else p.name)
    ensures q.description == (if patch.description.Some? then Strip(patch.description.value) else p.description)
    ensures q.owner == (if patch.owner.Some? then patch.owner.value else p.owner)
  {
    var q1 := if patch.name.Some? then p.(name := Strip(patch.name.value)) else p;
    var q2 := if patch.description.Some? then q1.(description := Strip(patch.description.value)) else q1;
    if patch.owner.Some? then q2.(owner := patch.owner.value) else q2
  }

  /** Applying the same partial update twice is applying it once, and an update
      that supplies nothing leaves the project as it was. */
  lemma ProjectPatchIdempotent(p: Project, patch: ProjectPatch)
    ensures ApplyProjectPatch(ApplyProjectPatch(p, patch), patch) == ApplyProjectPatch(p, patch)
    ensures ApplyProjectPatch(p, ProjectPatch(None, None, None)) == p
  {
  }

  /** Replacing one project keeps names unique when no other project has the new name. */
  lemma RenameKeepsNamesUnique(projects: map<ProjectId, Project>, id: ProjectId, q: Project)
    requires NamesUnique(projects) && id in projects
    requires forall k :: k in projects && k != id ==> projects[k].name != q.name
    ensures NamesUnique(projects[id := q])
  {
  }

  /** `PUT /projects/<pk>/`: merge the supplied fields into the stored project,
      deleted or not. */
  function UpdateProject(s: Store, pk: Option<int>, patch: ProjectPatch): (r: Reply<Project>)
    ensures Absent(pk) ==> r == Reply(Err(MissingId), s)
    ensures !Absent(pk) && pk.value !in s.projects ==> r == Reply(Err(NotFound), s)
    ensures r.result.Ok? <==>
      !Absent(pk) && pk.value in s.projects && ProjectPatchAcceptable(s, pk.value, patch)
    ensures r.result.Ok? ==>
      && r.result.value == ApplyProjectPatch(s.projects[pk.value], patch)
      && r.store == s.(projects := s.projects[pk.value := r.result.value])
    ensures r.result.Err? ==> r.store == s
    ensures Valid(s) ==> Valid(r.store)
  {
    if Absent(pk) then Reply(Err(MissingId), s)
    else if pk.value !in s.projects then Reply(Err(NotFound), s)
    else
      var id := pk.value;
      var nameCheck := if patch.name.Some? then CheckName(s, patch.name.value, Some(id)) else None;
      if nameCheck.Some? then Reply(Err(Invalid(nameCheck.value)), s)
      else if patch.description.Some? && CheckText(Description, patch.description.value, None).Some? then
        Reply(Err(Invalid(CheckText(Description, patch.description.value, None).value)), s)
      else if patch.owner.Some? && patch.owner.value !in s.users then
        Reply(Err(Invalid(UnknownRef(Owner))), s)
      else
        var q := ApplyProjectPatch(s.projects[id], patch);
        var t := s.(projects := s.projects[id := q]);
        assert Valid(s) ==> Valid(t) by {
          if Valid(s) {
            if patch.name.Some? {
              assert !NameTaken(s.projects, q.name, Some(id));
            }
            RenameKeepsNamesUnique(s.projects, id, q);
            assert forall i :: 0 <= i < |t.members| ==> MemberOk(t, t.members[i]) by {
              forall i | 0 <= i < |t.members| ensures MemberOk(t, t.members[i]) {
                assert MemberOk(s, s.members[i]);
              }
            }
            assert forall k :: k in t.tasks ==> TaskOk(t, t.tasks[k]) by {
              forall k | k in t.tasks ensures TaskOk(t, t.tasks[k]) {
                assert TaskOk(s, s.tasks[k]);
              }
            }
          }
        }
        Reply(Ok(q), t)
  }

  /** `DELETE /projects/<pk>/`: soft-delete a live project; a deleted one is refused. */
  function DeleteProject(s: Store, pk: Option<int>): (r: Reply<()>)
    ensures Absent(pk) ==> r == Reply(Err(MissingId), s)
    ensures !Absent(pk) && pk.value !in s.projects ==> r == Reply(Err(NotFound), s)
    ensures !Absent(pk) && pk.value in s.projects && s.projects[pk.value].deleted ==>
              r == Reply(Err(AlreadyDeleted), s)
    ensures r.result.Ok? <==> !Absent(pk) && pk.value in s.projects && !s.projects[pk.value].deleted
    ensures r.result.Ok? ==>
      && r.store.projects.Keys == s.projects.Keys
      && r.store.projects[pk.value].deleted
      && r.store.projects[pk.value].(deleted := false) == s.projects[pk.value]
      && (forall id :: id in s.projects && id != pk.value ==> r.store.projects[id] == s.projects[id])
      && r.store == s.(projects := r.store.projects)
    ensures Valid(s) ==> Valid(r.store)
  {
    if Absent(pk) then Reply(Err(MissingId), s)
    else if pk.value !in s.projects then Reply(Err(NotFound), s)
    else
      var id := pk.value;
      var p := s.projects[id];
      if p.deleted then Reply(Err(AlreadyDeleted), s)
      else
        var t := s.(projects := s.projects[id := p.(deleted := true)]);
        assert Valid(s) ==> Valid(t) by {
          if Valid(s) {
            assert forall i :: 0 <= i < |t.members| ==> MemberOk(t, t.members[i]) by {
              forall i | 0 <= i < |t.members| ensures MemberOk(t, t.members[i]) {
                assert MemberOk(s, s.members[i]);
              }
            }
            assert forall k :: k in t.tasks ==> TaskOk(t, t.tasks[k]) by {
              forall k | k in t.tasks ensures TaskOk(t, t.tasks[k]) {
                assert TaskOk(s, s.tasks[k]);
              }
            }
          }
        }
        Reply(Ok(()), t)
  }

  // ===========================================================================
  // Tasks

  /** A task the list handler shows for project `pid`: stored, live, and in that
      project. The project itself is not consulted. */
  predicate ListedTask(s: Store, pid: ProjectId, id: TaskId) {
    id in s.tasks && !s.tasks[id].deleted && s.tasks[id].project == Some(pid)
  }

  /** `GET /tasks/?project_id=…`: the live tasks of the project; an absent or empty
      query parameter is refused. */
  method ListTasks(s: Store, pid: Option<int>) returns (r: Result<map<TaskId, Task>>)
    ensures pid.None? ==> r == Err(MissingId)
    ensures pid.Some? ==> r.Ok?
    ensures r.Ok? ==> forall id :: id in r.value <==> ListedTask(s, pid.value, id)
    ensures r.Ok? ==> forall id :: id in r.value ==> id in s.tasks && r.value[id] == s.tasks[id]
  {
    if pid.None? {
      return Err(MissingId);
    }
    var listed: map<TaskId, Task> := map[];
    var todo := s.tasks.Keys;
    while todo != {}
      invariant todo <= s.tasks.Keys
      invariant forall id :: id in listed <==> ListedTask(s, pid.value, id) && id !in todo
      invariant forall id :: id in listed ==> id in s.tasks && listed[id] == s.tasks[id]
      decreases todo
    {
      SomeElement(todo);
      var id :| id in todo;
      var t := s.tasks[id];
      if !t.deleted && t.project == Some(pid.value) {
        listed := listed[id := t];
      }
      todo := todo - {id};
    }
    return Ok(listed);
  }

  /** The guard of task creation and update: the acting user owns the project or
      appears among its members. */
  predicate OwnerOrMember(s: Store, user: UserId, pid: ProjectId) {
    pid in s.projects && (s.projects[pid].owner == user || HasRow(s.members, user, pid))
  }

  datatype TaskInput = TaskInput(title: string, description: string, status: Option<string>, dueDate: Date)

  /** The fields a partial task update may carry: `project` may be set to another
      project or cleared. `deleted` and `created_by` are not among them. */
  datatype TaskPatch = TaskPatch(
    title: Option<string>,
    description: Option<string>,
    status: Option<string>,
    dueDate: Option<Date>,
    project: Option<Option<ProjectId>>)

  predicate TitleAcceptable(title: string) {
    TextAcceptable(title, Some(MaxTitleLength))
  }

  predicate StatusAcceptable(status: Option<string>) {
    status.Some? ==> ParseStatus(status.value).Some?
  }

  predicate TaskInputAcceptable(input: TaskInput) {
    TitleAcceptable(input.title) && TextAcceptable(input.description, None) && StatusAcceptable(input.status)
  }

  function CheckTaskInput(input: TaskInput): (v: Option<Violation>)
    ensures v.None? <==> TaskInputAcceptable(input)
  {
    var title := CheckText(Title, input.title, Some(MaxTitleLength));
    var description := CheckText(Description, input.description, None);
    if title.Some? then title
    else if description.Some? then description
    else if !StatusAcceptable(input.status) then Some(BadChoice(StatusField))
    else None
  }

  /** The status a new task receives: the submitted choice, or the default. */
  function InitialStatus(status: Option<string>): (st: Status)
    requires StatusAcceptable(status)
    ensures status.None? ==> st == DefaultStatus
    ensures status.Some? ==> Label(st) == status.value
  {
    if status.None? then DefaultStatus else ParseStatus(status.value).value
  }

  /** `POST /tasks/?project_id=…`: create a live task in a stored project (deleted
      or not) for a user who owns it or is among its members; the task's project is
      the one named in the query. */
  function CreateTask(s: Store, user: UserId, pid: Option<int>, input: TaskInput): (r: Reply<TaskId>)
    ensures pid.None? ==> r == Reply(Err(MissingId), s)
    ensures pid.Some? && pid.value !in s.projects ==> r == Reply(Err(NotFound), s)
    ensures pid.Some? && pid.value in s.projects && !OwnerOrMember(s, user, pid.value) ==>
              r == Reply(Err(NotMemberOrOwner), s)
    ensures r.result.Ok? <==> pid.Some? && OwnerOrMember(s, user, pid.value) && TaskInputAcceptable(input)
    ensures r.result.Ok? ==>
      var id := r.result.value;
      && (Valid(s) ==> id !in s.tasks)
      && id in r.store.tasks
      && var t := r.store.tasks[id];
      && t.project == Some(pid.value)
      && t.createdBy == user
      && !t.deleted
      && t.title == Strip(input.title) && t.description == Strip(input.description) && t.dueDate == input.dueDate
      && (input.status.None? ==> t.status == DefaultStatus)
      && (input.status.Some? ==> Label(t.status) == input.status.value)
      && r.store == s.(tasks := s.tasks[id := t], nextTask := id + 1)
    ensures r.result.Err? ==> r.store == s
    ensures Valid(s) ==> Valid(r.store)
  {
    if pid.None? then Reply(Err(MissingId), s)
    else if pid.value !in s.projects then Reply(Err(NotFound), s)
    else if !OwnerOrMember(s, user, pid.value) then Reply(Err(NotMemberOrOwner), s)
    else
      match CheckTaskInput(input)
      case Some(v) => Reply(Err(Invalid(v)), s)
      case None =>
        var id := s.nextTask;
        var task := Task(Some(pid.value), Strip(input.title), Strip(input.description), InitialStatus(input.status),
                         input.dueDate, false, user);
        var t := s.(tasks := s.tasks[id := task], nextTask := id + 1);
        assert Valid(s) ==> Valid(t) by {
          if Valid(s) {
            if s.projects[pid.value].owner != user {
              var i :| 0 <= i < |s.members| && RowFor(s.members[i], user, pid.value);
              assert MemberOk(s, s.members[i]);
            } else {
              assert ProjectOk(s, s.projects[pid.value]);
            }
            assert forall k :: k in s.tasks ==> k != id;
            assert forall i :: 0 <= i < |t.members| ==> MemberOk(t, t.members[i]) by {
              forall i | 0 <= i < |t.members| ensures MemberOk(t, t.members[i]) {
                assert MemberOk(s, s.members[i]);
              }
            }
          }
        }
        Reply(Ok(id), t)
  }

  predicate TaskPatchAcceptable(s: Store, patch: TaskPatch) {
    && (patch.title.Some? ==> TitleAcceptable(patch.title.value))
    && (patch.description.Some? ==> TextAcceptable(patch.description.value, None))
    && StatusAcceptable(patch.status)
    && (patch.project.Some? && patch.project.value.Some? ==> patch.project.value.value in s.projects)
  }

  function CheckTaskPatch(s: Store, patch: TaskPatch): (v: Option<Violation>)
    ensures v.None? <==> TaskPatchAcceptable(s, patch)
  {
    var title := if patch.title.Some? then CheckText(Title, patch.title.value, Some(MaxTitleLength)) else None;
    var description := if patch.description.Some? then CheckText(Description, patch.description.value, None) else None;
    if title.Some? then title
    else if description.Some? then description
    else if !StatusAcceptable(patch.status) then Some(BadChoice(StatusField))
    else if patch.project.Some? && patch.project.value.Some? && patch.project.value.value !in s.projects then
      Some(UnknownRef(ProjectRef))
    else None
  }

  /** The partial merge of a task update: supplied fields replace the stored ones,
      text trimmed; the rest, `deleted` and `created_by` included, stay. */
  function ApplyTaskPatch(t: Task, patch: TaskPatch): (u: Task)
    requires StatusAcceptable(patch.status)
    ensures u.deleted == t.deleted && u.createdBy == t.createdBy
    ensures u.title == (if patch.title.Some? then Strip(patch.title.value) else t.title)
    ensures u.description == (if patch.description.Some? then Strip(patch.description.value) else t.description)
    ensures patch.status.Some? ==> Label(u.status) == patch.status.value
    ensures patch.status.None? ==> u.status == t.status
    ensures u.dueDate == (if patch.dueDate.Some? then patch.dueDate.value else t.dueDate)
    ensures u.project == (if patch.project.Some? then patch.project.value else t.project)
  {
    Task(
      if patch.project.Some? then patch.project.value else t.project,
      if patch.title.Some? then Strip(patch.title.value) else t.title,
      if patch.description.Some? then Strip(patch.description.value) else t.description,
      if patch.status.Some? then ParseStatus(patch.status.value).value else t.status,
      if patch.dueDate.Some? then patch.dueDate.value else t.dueDate,
      t.deleted,
      t.createdBy)
  }

  /** Applying the same partial update twice is applying it once, and an update
      that supplies nothing leaves the task as it was. */
  lemma TaskPatchIdempotent(t: Task, patch: TaskPatch)
    requires StatusAcceptable(patch.status)
    ensures ApplyTaskPatch(ApplyTaskPatch(t, patch), patch) == ApplyTaskPatch(t, patch)
    ensures ApplyTaskPatch(t, TaskPatch(None, None, None, None, None)) == t
  {
  }

  /** `PUT /tasks/<pk>/`: merge the supplied fields into the stored task (deleted or
      not) for a user who owns or is a member of the task's current project. */
  function UpdateTask(s: Store, user: UserId, pk: Option<int>, patch: TaskPatch): (r: Reply<Task>)
    ensures Absent(pk) ==> r == Reply(Err(MissingId), s)
    ensures !Absent(pk) && pk.value !in s.tasks ==> r == Reply(Err(NotFound), s)
    ensures !Absent(pk) && pk.value in s.tasks && s.tasks[pk.value].project.None? ==>
              r == Reply(Err(TaskWithoutProject), s)
    ensures r.result.Ok? <==>
      && !Absent(pk) && pk.value in s.tasks && s.tasks[pk.value].project.Some?
      && OwnerOrMember(s, user, s.tasks[pk.value].project.value)
      && TaskPatchAcceptable(s, patch)
    ensures r.result.Ok? ==>
      && r.result.value == ApplyTaskPatch(s.tasks[pk.value], patch)
      && r.store == s.(tasks := s.tasks[pk.value := r.result.value])
    ensures r.result.Err? ==> r.store == s
    ensures Valid(s) ==> Valid(r.store)
  {
    if Absent(pk) then Reply(Err(MissingId), s)
    else if pk.value !in s.tasks then Reply(Err(NotFound), s)
    else
      var id := pk.value;
      var task := s.tasks[id];
      if task.project.None? then Reply(Err(TaskWithoutProject), s)
      else if task.project.value !in s.projects then Reply(Err(NotFound), s)
      else if !OwnerOrMember(s, user, task.project.value) then Reply(Err(NotMemberOrOwner), s)
      else
        match CheckTaskPatch(s, patch)
        case Some(v) => Reply(Err(Invalid(v)), s)
        case None =>
          var u := ApplyTaskPatch(task, patch);
          var t := s.(tasks := s.tasks[id := u]);
          assert Valid(s) ==> Valid(t) by {
            if Valid(s) {
              assert TaskOk(s, task);
              assert forall i :: 0 <= i < |t.members| ==> MemberOk(t, t.members[i]) by {
                forall i | 0 <= i < |t.members| ensures MemberOk(t, t.members[i]) {
                  assert MemberOk(s, s.members[i]);
                }
              }
            }
          }
          Reply(Ok(u), t)
  }

  /** `DELETE /tasks/<pk>/`: soft-delete a live task; a deleted one is refused. No
      user is consulted. */
  function DeleteTask(s: Store, pk: Option<int>): (r: Reply<()>)
    ensures Absent(pk) ==> r == Reply(Err(MissingId), s)
    ensures !Absent(pk) && pk.value !in s.tasks ==> r == Reply(Err(NotFound), s)
    ensures !Absent(pk) && pk.value in s.tasks && s.tasks[pk.value].deleted ==>
              r == Reply(Err(AlreadyDeleted), s)
    ensures r.result.Ok? <==> !Absent(pk) && pk.value in s.tasks && !s.tasks[pk.value].deleted
    ensures r.result.Ok? ==>
      && r.store.tasks.Keys == s.tasks.Keys
      && r.store.tasks[pk.value].deleted
      && r.store.tasks[pk.value].(deleted := false) == s.tasks[pk.value]
      && (forall id :: id in s.tasks && id != pk.value ==> r.store.tasks[id] == s.tasks[id])
      && r.store == s.(tasks := r.store.tasks)
    ensures Valid(s) ==> Valid(r.store)
  {
    if Absent(pk) then Reply(Err(MissingId), s)
    else if pk.value !in s.tasks then Reply(Err(NotFound), s)
    else
      var id := pk.value;
      var task := s.tasks[id];
      if task.deleted then Reply(Err(AlreadyDeleted), s)
      else
        var t := s.(tasks := s.tasks[id := task.(deleted := true)]);
        assert Valid(s) ==> Valid(t) by {
          if Valid(s) {
            assert TaskOk(s, task);
          }
        }
        Reply(Ok(()), t)
  }
}
